=== FILE: README.md ===
# Render-Meme front-end logic in Dafny

Render-Meme is a small React page. A signed-in user types a prompt, or inserts one
from a list of crypto-themed suggestions, and asks a hosted service for an image.
A light/dark/system theme switch is persisted across visits. This project models
the three pieces of sequential logic under the markup and proves properties about them.

- `wrappers.dfy` (`Wrappers`): `Option`, standing for JavaScript's `null`/`undefined`.
- `text.dfy` (`Text`): the string operations the code calls.
  - `toLowerCase` is `Lower`.
  - `includes` is `Includes`, proved equal to a substring specification.
  - `trim` is `Trim`, using ECMAScript's full WhiteSpace and LineTerminator set.
- `suggestions.dfy` (`Suggestions`): the catalogue of six suggestions and
  `getCryptoImageSuggestions` as a pure filter.
- `theme.ts` is modelled in `theme.dfy` (`ThemeStore`). The stored preference
  parses and resolves to a dark flag. `setTheme` writes, then applies. `initTheme`
  manages the OS colour-scheme listener.
  - The page is a value: the `localStorage` entries (reads and writes may fail),
    whether `matchMedia` exists and matches, the `dark` class, the `mediaListener`
    slot, and the registered change listeners.
- `image_generation.dfy` (`ImageGeneration`): the view state
  `{prompt, imageUrl, error, isGenerating}`.
  - `handleGenerateImage` is split into `Begin` (guard, clearing, request) and
    `Complete` (outcome to state). The service outcome is an input:
    `Image(base64) | NoImage | Threw(message?)`. `Threw(Some(m))` is an `Error`
    with message `m`; `Threw(None)` is any other thrown value.
  - Also modelled: the Reset button, the suggestion insertion, the download and
    copy guards, and `getEmojiForLabel`.
  - `Step`/`Run` replay any interleaving of Generate, completion, Reset,
    suggestion and typing events. Suggestion buttons and the prompt box are
    disabled while generating (ImageGeneration.tsx lines 38, 202, 221), so those
    events cannot happen then.

Three behaviours of the code are easy to miss; the model keeps them:
- A completion that arrives after Reset is still written to the view. No stale
  guard exists, and none is added (`ResetDoesNotCancel`).
- A missing image gives "No image was generated". Only a thrown value that is not
  an `Error` gives "Unknown error", even when it carries a `message` property. An
  `Error` with an empty message leaves an empty error, which the view does not display.
- `initTheme` does not keep its listener count at one, and on a second call it
  throws where the media query list lacks `removeEventListener` (see Findings).

## Model

| member | source | states |
|---|---|---|
| Text.Lower | src/lib/crypto-image-suggestions.ts:51-56 | lower-casing keeps the length, maps each character on its own, and leaves no upper-case ASCII letter |
| Text.LowerIdempotent | src/lib/crypto-image-suggestions.ts:51-56 | lower-casing an already lower-cased string changes nothing |
| Text.IncludesCorrect | src/lib/crypto-image-suggestions.ts:54-56 | the left-to-right `includes` search succeeds exactly when the needle occurs at some offset of the haystack |
| Text.Trim | src/components/ImageGeneration.tsx:87 | the trimmed prompt is a slice of the prompt with only whitespace dropped around it; it is empty exactly when the prompt is blank, and otherwise starts and ends with non-whitespace |
| Suggestions.MatchesIffMentions | src/lib/crypto-image-suggestions.ts:53-56 | the filter's test accepts an entry exactly when the lower-cased query occurs in its lower-cased label, description or example prompt |
| Suggestions.Filter | src/lib/crypto-image-suggestions.ts:52-57 | the filter returns no more entries than it is given: every returned entry is an input entry that matches (soundness), and every matching input entry is returned (completeness) |
| Suggestions.Positions | src/lib/crypto-image-suggestions.ts:52-57 | the matching positions of a sequence are in range, strictly increasing, and include every position whose entry matches |
| Suggestions.FilterKeepsOrder | src/lib/crypto-image-suggestions.ts:52-57 | the filtered result is exactly the entries at the matching positions, taken in increasing order, so it is an ordered subsequence of the input |
| Suggestions.FilterNoMatch | src/lib/crypto-image-suggestions.ts:52-57 | when no entry matches, the filter yields the empty sequence |
| Suggestions.GetSuggestions | src/lib/crypto-image-suggestions.ts:47-58 | an absent or empty query returns the catalogue unchanged; any other query returns exactly the catalogue entries that mention its lower-cased form; never more than six entries |
| Suggestions.SuggestionsInCatalogueOrder | src/lib/crypto-image-suggestions.ts:52 | for a non-empty query the suggestions are the catalogue entries at strictly increasing matching positions, so catalogue order is kept and no entry repeats |
| Suggestions.CaseInsensitive | src/lib/crypto-image-suggestions.ts:51 | a query and its lower-cased form return the same suggestions |
| Suggestions.NoMatchGivesEmpty | src/lib/crypto-image-suggestions.ts:52-57 | a non-empty query that no entry mentions returns the empty sequence, not a failure |
| Suggestions.CatalogueLabelsDistinct | src/lib/crypto-image-suggestions.ts:9-45 | the six catalogue labels are pairwise distinct |
| Suggestions.SuggestionLabelsDistinct | src/components/ImageGeneration.tsx:33-35 | every suggestion list the view renders has pairwise distinct labels, so the labels are usable as React keys |
| Suggestions.LogoQueryFindsTokenLogo | src/lib/crypto-image-suggestions.ts:10-15 | filtering for "LOGO" keeps the "Token Logo" entry |
| ThemeStore.Parse | src/lib/theme.ts:36 | a string is accepted as preference t exactly when it is t's token "light", "dark" or "system" |
| ThemeStore.GetStoredTheme | src/lib/theme.ts:32-41 | the stored preference is t exactly when storage is readable and the "theme" entry is t's token; absent, empty, invalid or unreadable entries give null |
| ThemeStore.GetInitialTheme | src/lib/theme.ts:70-72 | the initial preference is the valid stored one, and "system" when storage is unreadable, the entry is absent or it is not a valid token |
| ThemeStore.ResolveTable | src/lib/theme.ts:13-20 | light clears the dark flag, dark sets it, and system follows the OS preference, counting as not dark when `matchMedia` is missing |
| ThemeStore.ApplyTheme | src/lib/theme.ts:5-21 | applying a preference changes only the dark flag, following the resolution table |
| ThemeStore.ApplyThemeIdempotent | src/lib/theme.ts:5-21 | applying a preference twice is the same as applying it once |
| ThemeStore.SetTheme | src/lib/theme.ts:23-30 | `setTheme` writes the token under "theme" when writing succeeds and leaves storage alone when it fails; either way the flag reflects the new preference, and nothing else changes |
| ThemeStore.SetThemeRoundTrip | src/lib/theme.ts:23-30 | after a successful `setTheme(t)`, reading back yields t as both stored and initial preference |
| ThemeStore.SetThemeWriteFails | src/lib/theme.ts:24-29 | when the write fails, the page still shows t and the preference read back is unchanged |
| ThemeStore.OsChange | src/lib/theme.ts:54-57 | an OS colour-scheme change moves the dark flag to the new value only when the value really changes, a listener is registered and the stored-or-default preference is system; a report of the current value, or no `matchMedia`, leaves the page as it was; only the media value and the flag ever change |
| ThemeStore.InitTheme | src/lib/theme.ts:45-68 | `initTheme` as written applies the stored-or-system preference; it throws exactly when `matchMedia` exists, a previous listener is in the slot and the list lacks `removeEventListener`, and then slot and listeners are unchanged; otherwise a new closure replaces the one in the slot, no listener is removed, and the listeners grow by exactly that closure when `addEventListener` or the `addListener` fallback succeeds and stay unchanged when neither does |
| ThemeStore.InitThemeTwiceLeaksListener | src/lib/theme.ts:50-59 | two calls of `initTheme` as written, on a list with `addEventListener`, complete and leave two change listeners registered |
| ThemeStore.InitThemeTwiceThrowsOnLegacy | src/lib/theme.ts:53-65 | on a list with only the legacy `addListener`, the first call registers through the fallback and the second throws at the removal, leaving the first listener registered |
| ThemeStore.InitThemeFixed | src/lib/theme.ts:50-66 | with the previous listener removed from the list it was added to, the call never throws; the registered listeners stay within the `mediaListener` slot, so at most one remains; a successful registration leaves exactly the new closure registered, a failed one leaves none |
| ThemeStore.InitThemeFixedTwiceOnLegacy | src/lib/theme.ts:53-65 | with the corrected removal, two calls on a list with only `addListener` leave exactly the second closure registered |
| ThemeStore.InitThenOsChangeFollows | src/lib/theme.ts:50-59 | after `initTheme` (corrected) registers its closure while the preference is system, an OS colour-scheme change sets the dark flag to the new value |
| ThemeStore.AtMostOneListener | src/lib/theme.ts:43-68 | across any sequence of `initTheme`, `setTheme` and OS changes (corrected removal), at most one listener is registered, namely the one in the slot |
| ThemeStore.InitThemeIdempotentFlag | src/lib/theme.ts:45-47 | running `initTheme` (corrected) a second time leaves the dark flag where the first run put it |
| ThemeStore.InitThemeAsWrittenIdempotentFlag | src/lib/theme.ts:45-53 | running `initTheme` as written a second time, whether or not it throws, leaves the dark flag where the first run put it |
| ImageGeneration.Begin | src/components/ImageGeneration.tsx:86-99 | a request is issued exactly when the prompt is not blank, nothing is pending and a user is signed in; otherwise nothing changes; a request marks the view busy, clears image and error, and carries the trimmed prompt, "gpt-image-1", size "1024x1024" and quality "low" |
| ImageGeneration.Complete | src/components/ImageGeneration.tsx:100-111 | an image sets the URL to "data:image/png;base64," plus the payload; no image sets "No image was generated"; a thrown `Error` sets its message, any other thrown value "Unknown error"; each writes only one of the two fields and always clears the busy flag |
| ImageGeneration.ShownError | src/components/ImageGeneration.tsx:275-277 | the error banner appears exactly when the error is a non-empty string, and shows that string |
| ImageGeneration.EmptyErrorMessageHidden | src/components/ImageGeneration.tsx:106-108 | an `Error` with an empty message sets the error to "", which the banner does not show |
| ImageGeneration.Reset | src/components/ImageGeneration.tsx:259-264 | Reset empties the prompt and clears image and error, leaving the busy flag as it was |
| ImageGeneration.AppendSuggestion | src/components/ImageGeneration.tsx:199-201 | an empty prompt becomes the suggestion, any other prompt gets a newline and the suggestion appended; the old prompt is a prefix and the suggestion a suffix of the new one |
| ImageGeneration.DownloadImage | src/components/ImageGeneration.tsx:114-122 | a download happens exactly when an image URL is present, saving that URL as "crypto-image.png" |
| ImageGeneration.CopyImageSource | src/components/ImageGeneration.tsx:124-135 | a copy happens exactly when an image URL is present, fetching that URL |
| ImageGeneration.ImageCanBeSaved | src/components/ImageGeneration.tsx:101-102 | after an image arrives, both download and copy act on its data URL |
| ImageGeneration.SecondSubmitIgnored | src/components/ImageGeneration.tsx:87 | pressing Generate while a request is pending changes nothing and issues nothing |
| ImageGeneration.SignedOutSubmitIgnored | src/components/ImageGeneration.tsx:87 | pressing Generate without a user changes nothing and issues nothing |
| ImageGeneration.ResetDoesNotCancel | src/components/ImageGeneration.tsx:93-111 | a request begun before Reset still writes its image after Reset, leaving an empty prompt beside that image |
| ImageGeneration.GenerateShowsImage | src/components/ImageGeneration.tsx:86-111 | typing a non-empty prompt with no leading or trailing whitespace, pressing Generate while signed in and receiving an image issues exactly one request for that prompt and shows the image's data URL with no error |
| ImageGeneration.GenerateShowsThrownMessage | src/components/ImageGeneration.tsx:86-108 | from a non-blank prompt, Generate followed by a call that throws an `Error` with message m leaves m as the error and no image, for every m |
| ImageGeneration.Step | src/components/ImageGeneration.tsx:199-222 | an event cannot happen exactly when it is a completion with no call pending, or a suggestion or prompt edit while generating (those controls are disabled); only Generate issues requests, and a completion settles exactly one |
| ImageGeneration.InitialConsistent | src/components/ImageGeneration.tsx:77-81 | the view starts with no image, no error and nothing issued |
| ImageGeneration.StepConsistent | src/components/ImageGeneration.tsx:86-111 | every event keeps image and error from coexisting, shows nothing while pending, and keeps exactly one issued request unsettled while busy |
| ImageGeneration.RunConsistent | src/components/ImageGeneration.tsx:86-111 | along any sequence of events the view stays consistent: image and error are never both set, and at most one request is in flight |
| ImageGeneration.KeywordsFire | src/components/ImageGeneration.tsx:21-27 | each keyword rule fires exactly when one of its `includes` tests succeeds on the lower-cased label |
| ImageGeneration.EmojiForLabel | src/components/ImageGeneration.tsx:20-29 | the emoji is that of the first rule, in the order logo, nft, meme, chart/trading, wallet/ui, mascot, with a keyword in the lower-cased label; with no match it is "✨" |

## Left out

- Markup and styling are not modelled. This covers all JSX and class strings,
  the theme toggle component (src/components/ui/theme-toggle.tsx) and the
  loading and sign-in views. They carry no behaviour beyond the guards modelled here.
- The Echo SDK and the network call are outside the model. These are the provider,
  the `useEcho` and `useEchoModelProviders` hooks and `generateImage`. The signed-in
  user is a boolean, and the call's result is the `Outcome` input.
- The `import.meta.env` defaults in src/App.tsx are configuration only and are not modelled.
- Browser effects are reduced to values. The anchor click, `fetch`, the Clipboard
  API and the "Copy prompt" button (`navigator.clipboard.writeText`) change no state
  the view reads back. Only `copyImageToClipboard` catches its errors; a failing
  download or "Copy prompt" is not modelled.
  - `localStorage` is a map with readable/writable flags.
  - `matchMedia` is an optional boolean.
  - Whether the media query list is an EventTarget (has working `addEventListener`
    and `removeEventListener`) is a boolean, and so is whether the `addListener`
    fallback succeeds. The escaping TypeError is a `threw` flag on the result.
- The suggestion query box is not modelled. Its state and Clear button only
  provide the string passed to `GetSuggestions`.
- Text.Lower: lower-cases ASCII letters only. JavaScript's `toLowerCase` maps all
  of Unicode, and some characters change length. The catalogue text is ASCII, but
  the query is typed by the user, so results differ for non-ASCII queries: the
  Kelvin sign U+212A lower-cases to "k" in JavaScript and then matches all six
  entries, while the model keeps it and returns no entry.
- ThemeStore.InitTheme: requires that object identities already handed out be
  below the page's counter. A reachable page always satisfies this; it is what
  makes each `matchMedia` call return a new list object.
- Real concurrency is not modelled. The single event loop appears as the `Step`
  events; a pending call can only be completed, never cancelled.

## Findings

| source | as written | input that shows it | evidently intended | confidence | as-written member | corrected member |
|---|---|---|---|---|---|---|
| src/lib/theme.ts:50-53 | each call fetches the query list with a new `window.matchMedia(...)` call and removes the previous listener from that list. `matchMedia` returns a new MediaQueryList object every time, so the removal finds nothing | `initTheme()` called twice where `matchMedia` and `addEventListener` are available, e.g. the toggle's effect running twice | the previous listener is removed from the list it was added to, so at most one listener stays registered | medium, not executed; the dark flag is unaffected because every leaked listener does the same idempotent update | ThemeStore.InitThemeTwiceLeaksListener | ThemeStore.AtMostOneListener |
| src/lib/theme.ts:53 | the removal `mql.removeEventListener(...)` runs outside any `try`. The `addListener` fallback exists for lists that are not EventTargets, and those lack `removeEventListener` as well | `initTheme()` called twice on a browser whose MediaQueryList only has `addListener` (e.g. Safari before version 14): the second call throws a TypeError | the removal uses the call matching the one that added the listener and cannot throw, so the second call completes and replaces the listener | medium, not executed | ThemeStore.InitThemeTwiceThrowsOnLegacy | ThemeStore.InitThemeFixedTwiceOnLegacy |

=== FILE: image_generation.dfy ===
/**
 The logic of the image generation view (`src/components/ImageGeneration.tsx`):
 the generation request with its guard, the outcome handling, the Reset button,
 the suggestion insertion, the download and copy guards, and the emoji shown
 beside each suggestion.

 The image generation service is an input: a request either yields an image, no
 image, or throws. The call is split into `Begin` (before the `await`) and
 `Complete` (after it) so that other events can happen in between.
 */
module ImageGeneration {
  import opened Wrappers
  import opened Text

  /** The view's state: the prompt text, the last image (a data URL), the last error, and the busy flag. */
  datatype Session = Session(prompt: string, imageUrl: Option<string>, error: Option<string>, isGenerating: bool)

  /** The state the view starts in. */
  const Initial: Session := Session("", None, None, false)

  /** The arguments passed to the image generation service. */
  datatype Request = Request(model: string, prompt: string, size: string, quality: string)

  const ImageModel: string := "gpt-image-1"
  const ImageSize: string := "1024x1024"
  const ImageQuality: string := "low"

  /**
   How the service call ends: an image (base64 PNG), no image, or a thrown value.
   `Threw(Some(m))` is a thrown `Error` whose `message` is `m` (possibly empty);
   `Threw(None)` is any thrown value that is not an `Error`, even one carrying a
   `message` property.
   */
  datatype Outcome = Image(base64: string) | NoImage | Threw(message: Option<string>)

  const DataUrlPrefix: string := "data:image/png;base64,"
  const NoImageMessage: string := "No image was generated"
  const UnknownErrorMessage: string := "Unknown error"

  /**
   The first half of `handleGenerateImage`. With a blank prompt, a request in
   progress, or no signed-in user it does nothing and issues no request.
   Otherwise it marks the view busy, clears the previous image and error, and
   issues one request for the trimmed prompt.
   */
  function Begin(s: Session, signedIn: bool): (r: (Session, Option<Request>))
    ensures r.1.Some? <==> !IsBlank(s.prompt) && !s.isGenerating && signedIn
    ensures r.1.None? ==> r.0 == s
    ensures r.1.Some? ==> r.0 == Session(s.prompt, None, None, true)
    ensures r.1.Some? ==> && r.1.value.prompt == Trim(s.prompt)
                          && r.1.value.prompt != ""
                          && r.1.value.model == ImageModel
                          && r.1.value.size == "1024x1024"
                          && r.1.value.quality == "low"
  {
    if Trim(s.prompt) == "" || s.isGenerating || !signedIn then (s, None)
    else
      (s.(isGenerating := true, error := None, imageUrl := None),
       Some(Request(ImageModel, Trim(s.prompt), ImageSize, ImageQuality)))
  }

  /**
   The second half of `handleGenerateImage`: an image becomes a PNG data URL, a
   missing image or a thrown value becomes an error message, and in every case the
   view stops being busy. Each outcome writes one of image and error only; the
   prompt is left alone. Nothing checks whether the view was reset meanwhile.
   */
  function Complete(s: Session, o: Outcome): (r: Session)
    ensures !r.isGenerating
    ensures r.prompt == s.prompt
    ensures o.Image? ==> r.imageUrl == Some(DataUrlPrefix + o.base64) && r.error == s.error
    ensures o.NoImage? ==> r.error == Some(NoImageMessage) && r.imageUrl == s.imageUrl
    ensures o.Threw? && o.message.Some? ==> r.error == Some(o.message.value) && r.imageUrl == s.imageUrl
    ensures o.Threw? && o.message.None? ==> r.error == Some(UnknownErrorMessage) && r.imageUrl == s.imageUrl
  {
    var s' := match o
      case Image(b) => s.(imageUrl := Some(DataUrlPrefix + b))
      case NoImage => s.(error := Some(NoImageMessage))
      case Threw(m) => s.(error := Some(m.GetOr(UnknownErrorMessage)));
    s'.(isGenerating := false)
  }

  /** The error banner: shown only when `error` is set to a non-empty string. */
  function ShownError(s: Session): (r: Option<string>)
    ensures r.Some? <==> s.error.Some? && s.error.value != ""
    ensures r.Some? ==> r.value == s.error.value
  {
    if s.error.Some? && s.error.value != "" then s.error else None
  }

  /** An `Error` with an empty message sets the error to "", which the banner does not show. */
  lemma EmptyErrorMessageHidden(s: Session)
    ensures Complete(s, Threw(Some(""))).error == Some("")
    ensures ShownError(Complete(s, Threw(Some("")))) == None
  {
  }

  /** The Reset button: clears prompt, image and error, and leaves the busy flag alone. */
  function Reset(s: Session): (r: Session)
    ensures r.prompt == "" && r.imageUrl.None? && r.error.None?
    ensures r.isGenerating == s.isGenerating
  {
    s.(prompt := "", imageUrl := None, error := None)
  }

  /**
   Inserting suggestion `p` into the prompt: an empty prompt becomes `p`, any
   other prompt gets a newline and `p` appended. The old prompt is kept as a
   prefix and `p` ends the new one.
   */
  function AppendSuggestion(prev: string, p: string): (r: string)
    ensures prev == "" ==> r == p
    ensures prev != "" ==> r == prev + "\n" + p
    ensures prev <= r
    ensures |r| >= |p| && r[|r| - |p|..] == p
  {
    if prev != "" then prev + "\n" + p else p
  }

  /** What `downloadImage` saves: the image's URL under a fixed file name. */
  datatype Download = Download(href: string, fileName: string)

  /** `downloadImage`: nothing without an image (or with an empty URL), else the image as `crypto-image.png`. */
  function DownloadImage(s: Session): (r: Option<Download>)
    ensures r.Some? <==> s.imageUrl.Some? && s.imageUrl.value != ""
    ensures r.Some? ==> r.value.href == s.imageUrl.value && r.value.fileName == "crypto-image.png"
  {
    if s.imageUrl.None? || s.imageUrl.value == "" then None
    else Some(Download(s.imageUrl.value, "crypto-image.png"))
  }

  /** `copyImageToClipboard`: the URL fetched and copied, or nothing without an image. */
  function CopyImageSource(s: Session): (r: Option<string>)
    ensures r.Some? <==> s.imageUrl.Some? && s.imageUrl.value != ""
    ensures r.Some? ==> r.value == s.imageUrl.value
  {
    if s.imageUrl.None? || s.imageUrl.value == "" then None else s.imageUrl
  }

  /** A successful generation can always be downloaded and copied. */
  lemma ImageCanBeSaved(s: Session, b: string)
    ensures DownloadImage(Complete(s, Image(b))) == Some(Download(DataUrlPrefix + b, "crypto-image.png"))
    ensures CopyImageSource(Complete(s, Image(b))) == Some(DataUrlPrefix + b)
  {
  }

  /** A request issued before Reset still writes its image afterwards: there is no stale-result guard. */
  lemma ResetDoesNotCancel(s: Session, b: string)
    requires !IsBlank(s.prompt) && !s.isGenerating
    ensures var begun := Begin(s, true).0;
            Complete(Reset(begun), Image(b)) == Session("", Some(DataUrlPrefix + b), None, false)
  {
  }

  /** While a request is pending, pressing Generate again changes nothing and issues nothing. */
  lemma SecondSubmitIgnored(s: Session, signedIn: bool)
    requires s.isGenerating
    ensures Begin(s, signedIn) == (s, None)
  {
  }

  /** Without a signed-in user, Generate changes nothing and issues nothing. */
  lemma SignedOutSubmitIgnored(s: Session)
    ensures Begin(s, false) == (s, None)
  {
  }

  /**
   Typing a prompt that neither starts nor ends with whitespace, pressing Generate
   while signed in, and receiving the image `b` issues one request for that prompt
   and shows `b` as a PNG data URL.
   */
  lemma GenerateShowsImage(p: string, b: string)
    requires p != [] && !IsWhitespace(p[0]) && !IsWhitespace(p[|p| - 1])
    ensures var t := Run(Trace(Initial, [], 0), [EditPrompt(p), Generate(true), Finish(Image(b))]);
            && t.Some?
            && t.value.issued == [Request("gpt-image-1", p, "1024x1024", "low")]
            && t.value.session == Session(p, Some("data:image/png;base64," + b), None, false)
  {
    var rest := [Generate(true), Finish(Image(b))];
    assert Step(Trace(Initial, [], 0), EditPrompt(p)) == Some(Trace(Initial.(prompt := p), [], 0));
    GenerateThenImage(p, b);
    RunCons(Trace(Initial, [], 0), EditPrompt(p), rest);
    assert [EditPrompt(p), Generate(true), Finish(Image(b))] == [EditPrompt(p)] + rest;
  }

  /** From a typed prompt that needs no trimming, Generate and an image end in that image. */
  lemma GenerateThenImage(p: string, b: string)
    requires p != [] && !IsWhitespace(p[0]) && !IsWhitespace(p[|p| - 1])
    ensures Run(Trace(Initial.(prompt := p), [], 0), [Generate(true), Finish(Image(b))])
            == Some(Trace(Session(p, Some(DataUrlPrefix + b), None, false),
                          [Request(ImageModel, p, ImageSize, ImageQuality)], 1))
  {
    var t1 := Trace(Session(p, None, None, true), [Request(ImageModel, p, ImageSize, ImageQuality)], 0);
    GenerateUntrimmed(p);
    FinishStep(t1, Image(b));
    RunTwo(Trace(Initial.(prompt := p), [], 0), Generate(true), Finish(Image(b)));
  }

  /** Running `e` then `es` is stepping `e`, then running `es`. */
  lemma RunCons(t: Trace, e: Event, es: seq<Event>)
    ensures Run(t, [e] + es) == if Step(t, e).None? then None else Run(Step(t, e).value, es)
  {
    assert ([e] + es)[1..] == es;
  }

  /** Running two events is stepping through both, stopping at the first that cannot happen. */
  lemma RunTwo(t: Trace, e1: Event, e2: Event)
    ensures Run(t, [e1, e2]) == if Step(t, e1).None? then None else Step(Step(t, e1).value, e2)
  {
    RunCons(t, e1, [e2]);
    assert [e1, e2] == [e1] + [e2];
    if Step(t, e1).Some? {
      RunCons(Step(t, e1).value, e2, []);
      assert [e2] == [e2] + [];
    }
  }

  /** Generate on a signed-in, idle view with a non-blank prompt, before any request, issues one request. */
  lemma BeginIssues(s: Session)
    requires !IsBlank(s.prompt) && !s.isGenerating
    ensures Step(Trace(s, [], 0), Generate(true))
            == Some(Trace(s.(isGenerating := true, error := None, imageUrl := None),
                          [Request(ImageModel, Trim(s.prompt), ImageSize, ImageQuality)], 0))
  {
    var req := Request(ImageModel, Trim(s.prompt), ImageSize, ImageQuality);
    assert Begin(s, true) == (s.(isGenerating := true, error := None, imageUrl := None), Some(req));
    assert [] + [req] == [req];
  }

  /** A pending call that settles with outcome `o` completes the session and counts as settled. */
  lemma FinishStep(t: Trace, o: Outcome)
    requires t.session.isGenerating
    ensures Step(t, Finish(o)) == Some(Trace(Complete(t.session, o), t.issued, t.settled + 1))
  {
  }

  /** Generate on a signed-in, idle view whose prompt needs no trimming sends the prompt as typed. */
  lemma GenerateUntrimmed(p: string)
    requires p != [] && !IsWhitespace(p[0]) && !IsWhitespace(p[|p| - 1])
    ensures Step(Trace(Initial.(prompt := p), [], 0), Generate(true))
            == Some(Trace(Session(p, None, None, true), [Request(ImageModel, p, ImageSize, ImageQuality)], 0))
  {
    TrimUntouched(p);
    assert !IsBlank(p);
    BeginIssues(Initial.(prompt := p));
  }

  /** A request whose call throws an `Error` with message `m` shows `m` as the error, and no image. */
  lemma GenerateShowsThrownMessage(prompt: string, m: string)
    requires !IsBlank(prompt)
    ensures var t := Run(Trace(Initial.(prompt := prompt), [], 0), [Generate(true), Finish(Threw(Some(m)))]);
            && t.Some?
            && t.value.session.error == Some(m)
            && t.value.session.imageUrl.None?
  {
    var s := Initial.(prompt := prompt);
    BeginIssues(s);
    var t1 := Trace(s.(isGenerating := true, error := None, imageUrl := None),
                    [Request(ImageModel, Trim(prompt), ImageSize, ImageQuality)], 0);
    FinishStep(t1, Threw(Some(m)));
    RunTwo(Trace(s, [], 0), Generate(true), Finish(Threw(Some(m))));
  }

  /** The user actions and service completions the view reacts to. */
  datatype Event =
    | Generate(signedIn: bool)   // the Generate button
    | Finish(outcome: Outcome)   // the pending service call settles
    | ResetPressed               // the Reset button
    | UseExample(example: string) // a suggestion's button
    | EditPrompt(text: string)   // typing in the prompt box

  /** A session with the requests it issued and the number of calls that settled. */
  datatype Trace = Trace(session: Session, issued: seq<Request>, settled: nat)

  /**
   One event, or `None` when it cannot happen: a completion with no call pending,
   or a suggestion or edit while the suggestion buttons and the prompt box are
   disabled during generation.
   */
  function Step(t: Trace, e: Event): (r: Option<Trace>)
    ensures r.None? <==> || (e.Finish? && !t.session.isGenerating)
                         || ((e.UseExample? || e.EditPrompt?) && t.session.isGenerating)
    ensures r.Some? && !e.Generate? ==> r.value.issued == t.issued
    ensures r.Some? && e.Finish? ==> r.value.settled == t.settled + 1
  {
    var s := t.session;
    match e
    case Generate(u) =>
      var (s', req) := Begin(s, u);
      Some(Trace(s', if req.Some? then t.issued + [req.value] else t.issued, t.settled))
    case Finish(o) =>
      if s.isGenerating then Some(Trace(Complete(s, o), t.issued, t.settled + 1)) else None
    case ResetPressed => Some(t.(session := Reset(s)))
    case UseExample(p) =>
      if s.isGenerating then None else Some(t.(session := s.(prompt := AppendSuggestion(s.prompt, p))))
    case EditPrompt(x) =>
      if s.isGenerating then None else Some(t.(session := s.(prompt := x)))
  }

  /** A sequence of events; `None` when one of them cannot happen. */
  function Run(t: Trace, es: seq<Event>): Option<Trace>
    decreases |es|
  {
    if es == [] then Some(t)
    else
      var next := Step(t, es[0]);
      if next.None? then None else Run(next.value, es[1..])
  }

  /**
   The session invariant: image and error are never both present, nothing is shown
   while a call is pending, and every issued request but the pending one has settled.
   */
  predicate Consistent(t: Trace) {
    && !(t.session.imageUrl.Some? && t.session.error.Some?)
    && (t.session.isGenerating ==> t.session.imageUrl.None? && t.session.error.None?)
    && |t.issued| == t.settled + (if t.session.isGenerating then 1 else 0)
  }

  /** The view starts consistent, with nothing issued. */
  lemma InitialConsistent()
    ensures Consistent(Trace(Initial, [], 0))
  {
  }

  /** Every event keeps the session consistent. */
  lemma StepConsistent(t: Trace, e: Event)
    requires Consistent(t)
    ensures Step(t, e).Some? ==> Consistent(Step(t, e).value)
  {
  }

  /**
   Along any run the session stays consistent: at most one request is ever pending,
   and image and error never coexist.
   */
  lemma {:induction false} RunConsistent(t: Trace, es: seq<Event>)
    requires Consistent(t)
    ensures Run(t, es).Some? ==> Consistent(Run(t, es).value)
    decreases |es|
  {
    if es != [] {
      StepConsistent(t, es[0]);
      var next := Step(t, es[0]);
      if next.Some? {
        RunConsistent(next.value, es[1..]);
      }
    }
  }

  /** A keyword rule of the emoji classifier: any of `keywords` selects `emoji`. */
  datatype Rule = Rule(keywords: seq<string>, emoji: string)

  /** The classifier's rules, in the order they are tried. */
  const EmojiRules: seq<Rule> := [
    Rule(["logo"], "\U{1F537}"),
    Rule(["nft"], "\U{1F5BC}\U{FE0F}"),
    Rule(["meme"], "\U{1F923}"),
    Rule(["chart", "trading"], "\U{1F4C8}"),
    Rule(["wallet", "ui"], "\U{1F4F1}"),
    Rule(["mascot"], "\U{1F98A}")
  ]

  /** The emoji for a label no rule matches. */
  const DefaultEmoji: string := "\U{2728}"

  /** Some keyword of `rule` occurs in the lower-cased label `l`. */
  ghost predicate Fires(rule: Rule, l: string) {
    exists k :: 0 <= k < |rule.keywords| && IsSubstring(rule.keywords[k], l)
  }

  /** Rule `i` is the first rule that fires on `l`. */
  ghost predicate FirstFiring(i: nat, l: string) {
    && i < |EmojiRules|
    && Fires(EmojiRules[i], l)
    && forall j :: 0 <= j < i ==> !Fires(EmojiRules[j], l)
  }

  /**
   `getEmojiForLabel`: the emoji of the first rule with a keyword in the
   lower-cased label, or the default emoji when none has.
   */
  function EmojiForLabel(title: string): (r: string)
    ensures forall i: nat :: FirstFiring(i, Lower(title)) ==> r == EmojiRules[i].emoji
    ensures (forall i :: 0 <= i < |EmojiRules| ==> !Fires(EmojiRules[i], Lower(title))) ==> r == DefaultEmoji
  {
    var l := Lower(title);
    KeywordsFire(l);
    if Includes(l, "logo") then "\U{1F537}"
    else if Includes(l, "nft") then "\U{1F5BC}\U{FE0F}"
    else if Includes(l, "meme") then "\U{1F923}"
    else if Includes(l, "chart") || Includes(l, "trading") then "\U{1F4C8}"
    else if Includes(l, "wallet") || Includes(l, "ui") then "\U{1F4F1}"
    else if Includes(l, "mascot") then "\U{1F98A}"
    else DefaultEmoji
  }

  /** Which rules fire, in terms of the `includes` tests the classifier makes. */
  lemma KeywordsFire(l: string)
    ensures Fires(EmojiRules[0], l) <==> Includes(l, "logo")
    ensures Fires(EmojiRules[1], l) <==> Includes(l, "nft")
    ensures Fires(EmojiRules[2], l) <==> Includes(l, "meme")
    ensures Fires(EmojiRules[3], l) <==> Includes(l, "chart") || Includes(l, "trading")
    ensures Fires(EmojiRules[4], l) <==> Includes(l, "wallet") || Includes(l, "ui")
    ensures Fires(EmojiRules[5], l) <==> Includes(l, "mascot")
  {
    IncludesCorrect(l, "logo");
    IncludesCorrect(l, "nft");
    IncludesCorrect(l, "meme");
    IncludesCorrect(l, "chart");
    IncludesCorrect(l, "trading");
    IncludesCorrect(l, "wallet");
    IncludesCorrect(l, "ui");
    IncludesCorrect(l, "mascot");
    FiresAny(EmojiRules[0], l);
    FiresAny(EmojiRules[1], l);
    FiresAny(EmojiRules[2], l);
    FiresAny(EmojiRules[3], l);
    FiresAny(EmojiRules[4], l);
    FiresAny(EmojiRules[5], l);
  }

  /** A rule with one or two keywords fires when its first or second keyword occurs. */
  lemma FiresAny(rule: Rule, l: string)
    requires 1 <= |rule.keywords| <= 2
    ensures |rule.keywords| == 1 ==> (Fires(rule, l) <==> IsSubstring(rule.keywords[0], l))
    ensures |rule.keywords| == 2 ==>
              (Fires(rule, l) <==> IsSubstring(rule.keywords[0], l) || IsSubstring(rule.keywords[1], l))
  {
    if Fires(rule, l) {
      var k :| 0 <= k < |rule.keywords| && IsSubstring(rule.keywords[k], l);
      assert k == 0 || k == 1;
    }
  }
}

=== FILE: suggestions.dfy ===
/**
 The crypto image suggestion catalogue and its case-insensitive filter
 (`getCryptoImageSuggestions`).
 */
module Suggestions {
  import opened Wrappers
  import opened Text

  /** One catalogue entry: a short label (`title`, as `label` is a Dafny keyword), a description and a prompt to insert. */
  datatype Suggestion = Suggestion(title: string, description: string, examplePrompt: string)

  /** The fixed catalogue, in definition order. */
  const Catalogue: seq<Suggestion> := [
    Suggestion(
      "Token Logo",
      "Generate a logo for a new cryptocurrency token.",
      "Create a sleek, modern logo for a token called \"SolX\" with a blue and silver color scheme."),
    Suggestion(
      "NFT Art",
      "Suggest an NFT artwork concept.",
      "Design a pixel art NFT featuring a futuristic robot holding a Bitcoin."),
    Suggestion(
      "Crypto Meme",
      "Generate a meme image about crypto trends.",
      "A cartoon of a rocket labeled \"ETH\" blasting off to the moon."),
    Suggestion(
      "Trading Chart",
      "Visualize a crypto price chart or trading signal.",
      "Render a candlestick chart showing a bullish breakout for Dogecoin."),
    Suggestion(
      "Wallet UI",
      "Suggest a UI mockup for a crypto wallet app.",
      "Design a mobile wallet interface with a dark theme and neon highlights."),
    Suggestion(
      "Crypto Mascot",
      "Create a mascot character for a blockchain project.",
      "Draw a friendly fox mascot for a DeFi platform.")
  ]

  /** The filter's test of one entry against an already lower-cased query `q`. */
  predicate Matches(s: Suggestion, q: string) {
    || Includes(Lower(s.title), q)
    || Includes(Lower(s.description), q)
    || Includes(Lower(s.examplePrompt), q)
  }

  /** What the filter promises: `q` is part of the lower-cased label, description or example prompt. */
  ghost predicate Mentions(s: Suggestion, q: string) {
    || IsSubstring(q, Lower(s.title))
    || IsSubstring(q, Lower(s.description))
    || IsSubstring(q, Lower(s.examplePrompt))
  }

  /** The executable test agrees with the specification on every entry. */
  lemma MatchesIffMentions(q: string)
    ensures forall s :: Matches(s, q) <==> Mentions(s, q)
  {
    forall s: Suggestion
      ensures Matches(s, q) <==> Mentions(s, q)
    {
      IncludesCorrect(Lower(s.title), q);
      IncludesCorrect(Lower(s.description), q);
      IncludesCorrect(Lower(s.examplePrompt), q);
    }
  }

  /** `entries.filter(...)`: the entries that match `q`, and only those. */
  function Filter(entries: seq<Suggestion>, q: string): (r: seq<Suggestion>)
    ensures |r| <= |entries|
    ensures forall s :: s in r ==> s in entries && Matches(s, q)
    ensures forall s :: s in entries && Matches(s, q) ==> s in r
  {
    if entries == [] then []
    else
      var n := |entries| - 1;
      var init := Filter(entries[..n], q);
      assert entries == entries[..n] + [entries[n]];
      if Matches(entries[n], q) then init + [entries[n]] else init
  }

  /** When no entry matches, the filter returns the empty sequence. */
  lemma {:induction false} FilterNoMatch(entries: seq<Suggestion>, q: string)
    requires forall i :: 0 <= i < |entries| ==> !Matches(entries[i], q)
    ensures Filter(entries, q) == []
  {
    if entries != [] {
      FilterNoMatch(entries[..|entries| - 1], q);
    }
  }

  /** The entries at positions `ps`, in the order of `ps`. */
  function Select(entries: seq<Suggestion>, ps: seq<nat>): seq<Suggestion>
    requires forall k :: 0 <= k < |ps| ==> ps[k] < |entries|
  {
    seq(|ps|, k requires 0 <= k < |ps| => entries[ps[k]])
  }

  /** Selecting positions below `n` from a sequence or from its first `n` entries is the same. */
  lemma SelectPrefix(entries: seq<Suggestion>, ps: seq<nat>, n: nat)
    requires n <= |entries|
    requires forall k :: 0 <= k < |ps| ==> ps[k] < n
    ensures Select(entries[..n], ps) == Select(entries, ps)
  {
  }

  /** Selecting one more position appends its entry. */
  lemma SelectSnoc(entries: seq<Suggestion>, ps: seq<nat>, n: nat)
    requires n < |entries|
    requires forall k :: 0 <= k < |ps| ==> ps[k] < |entries|
    ensures Select(entries, ps + [n]) == Select(entries, ps) + [entries[n]]
  {
  }

  /** The positions of the matching entries, in increasing order. */
  function Positions(entries: seq<Suggestion>, q: string): (ps: seq<nat>)
    ensures forall k :: 0 <= k < |ps| ==> ps[k] < |entries| && Matches(entries[ps[k]], q)
    ensures forall k, l :: 0 <= k < l < |ps| ==> ps[k] < ps[l]
    ensures forall i :: 0 <= i < |entries| && Matches(entries[i], q) ==> i in ps
  {
    if entries == [] then []
    else
      var n := |entries| - 1;
      Positions(entries[..n], q) + (if Matches(entries[n], q) then [n] else [])
  }

  /**
   The filter keeps the matching entries in catalogue order: its `k`-th result is
   the entry at the `k`-th matching position.
   */
  lemma {:induction false} FilterKeepsOrder(entries: seq<Suggestion>, q: string)
    ensures Filter(entries, q) == Select(entries, Positions(entries, q))
  {
    if entries != [] {
      var n := |entries| - 1;
      FilterKeepsOrder(entries[..n], q);
      var ps := Positions(entries[..n], q);
      SelectPrefix(entries, ps, n);
      if Matches(entries[n], q) {
        SelectSnoc(entries, ps, n);
      }
    }
  }

  /**
   `getCryptoImageSuggestions(query)`: an absent or empty query yields the whole
   catalogue; otherwise exactly the catalogue entries that mention the lower-cased
   query.
   */
  function GetSuggestions(query: Option<string>): (r: seq<Suggestion>)
    ensures query.None? || query == Some("") ==> r == Catalogue
    ensures |r| <= |Catalogue|
    ensures forall s :: s in r ==> s in Catalogue
    ensures query.Some? && query.value != "" ==>
              forall s :: s in r <==> s in Catalogue && Mentions(s, Lower(query.value))
  {
    if query.None? || query.value == "" then Catalogue
    else
      var q := Lower(query.value);
      MatchesIffMentions(q);
      Filter(Catalogue, q)
  }

  /**
   For a non-empty query the result is an ordered selection of the catalogue: the
   entries at the matching positions, which strictly increase.
   */
  lemma SuggestionsInCatalogueOrder(q: string)
    requires q != ""
    ensures var ps := Positions(Catalogue, Lower(q));
            && GetSuggestions(Some(q)) == Select(Catalogue, ps)
            && (forall k, l :: 0 <= k < l < |ps| ==> ps[k] < ps[l])
  {
    FilterKeepsOrder(Catalogue, Lower(q));
  }

  /** The filter ignores case: a query and its lower-cased form give the same suggestions. */
  lemma CaseInsensitive(q: string)
    ensures GetSuggestions(Some(q)) == GetSuggestions(Some(Lower(q)))
  {
    LowerIdempotent(q);
  }

  /** No catalogue entry mentions the query: the result is empty rather than a failure. */
  lemma NoMatchGivesEmpty(q: string)
    requires q != ""
    requires forall s :: s in Catalogue ==> !Mentions(s, Lower(q))
    ensures GetSuggestions(Some(q)) == []
  {
    MatchesIffMentions(Lower(q));
    FilterNoMatch(Catalogue, Lower(q));
  }

  /** No two entries share a label. */
  predicate DistinctLabels(entries: seq<Suggestion>) {
    forall i, j :: 0 <= i < j < |entries| ==> entries[i].title != entries[j].title
  }

  /** Catalogue labels are pairwise distinct, so they can serve as list keys. */
  lemma CatalogueLabelsDistinct()
    ensures DistinctLabels(Catalogue)
  {
  }

  /** Selecting at strictly increasing positions keeps labels distinct. */
  lemma SelectKeepsDistinct(entries: seq<Suggestion>, ps: seq<nat>)
    requires DistinctLabels(entries)
    requires forall k :: 0 <= k < |ps| ==> ps[k] < |entries|
    requires forall k, l :: 0 <= k < l < |ps| ==> ps[k] < ps[l]
    ensures DistinctLabels(Select(entries, ps))
  {
  }

  /** Every list of suggestions shown has pairwise distinct labels. */
  lemma SuggestionLabelsDistinct(query: Option<string>)
    ensures DistinctLabels(GetSuggestions(query))
  {
    CatalogueLabelsDistinct();
    if query.Some? && query.value != "" {
      var q := Lower(query.value);
      FilterKeepsOrder(Catalogue, q);
      SelectKeepsDistinct(Catalogue, Positions(Catalogue, q));
    }
  }

  /** Filtering for "LOGO" keeps the "Token Logo" entry. */
  lemma LogoQueryFindsTokenLogo()
    ensures Catalogue[0] in GetSuggestions(Some("LOGO"))
  {
    var s := Catalogue[0];
    var l := Lower(s.title);
    assert Lower("LOGO") == "logo";
    assert l[6..10] == "logo";
    assert OccursAt("logo", l, 6);
  }
}

=== FILE: text.dfy ===
/**
 The string primitives the front end relies on: `toLowerCase`, `includes` and
 `trim` of JavaScript strings, over `string` (a sequence of Unicode scalar values).
 */
module Text {

  /** True of an ASCII upper-case letter. */
  predicate IsUpper(c: char) {
    'A' <= c <= 'Z'
  }

  /** ASCII lower-casing of one character; every other character is left alone. */
  function LowerChar(c: char): (r: char)
    ensures !IsUpper(r)
    ensures IsUpper(c) ==> r as int == c as int + 32
    ensures !IsUpper(c) ==> r == c
  {
    if IsUpper(c) then (c as int - 'A' as int + 'a' as int) as char else c
  }

  /** `s.toLowerCase()`, restricted to ASCII letters. */
  function Lower(s: string): (r: string)
    ensures |r| == |s|
    ensures forall i :: 0 <= i < |s| ==> r[i] == LowerChar(s[i])
    ensures forall i :: 0 <= i < |r| ==> !IsUpper(r[i])
  {
    seq(|s|, i requires 0 <= i < |s| => LowerChar(s[i]))
  }

  /** Lower-casing twice is lower-casing once. */
  lemma LowerIdempotent(s: string)
    ensures Lower(Lower(s)) == Lower(s)
  {
  }

  /** `needle` occurs in `hay` starting at offset `i`. */
  predicate OccursAt(needle: string, hay: string, i: nat) {
    i + |needle| <= |hay| && hay[i..i + |needle|] == needle
  }

  /** The specification of `hay.includes(needle)`: `needle` occurs at some offset of `hay`. */
  ghost predicate IsSubstring(needle: string, hay: string) {
    exists i: nat :: OccursAt(needle, hay, i)
  }

  /** `hay.includes(needle)`, searching offsets left to right. */
  function Includes(hay: string, needle: string): bool
    decreases |hay|
  {
    if |needle| > |hay| then false
    else if hay[..|needle|] == needle then true
    else Includes(hay[1..], needle)
  }

  /** The left-to-right search finds `needle` exactly when it occurs somewhere in `hay`. */
  lemma {:induction false} IncludesCorrect(hay: string, needle: string)
    ensures Includes(hay, needle) <==> IsSubstring(needle, hay)
    decreases |hay|
  {
    var n := |needle|;
    if n > |hay| {
    } else if hay[..n] == needle {
      assert OccursAt(needle, hay, 0);
    } else {
      IncludesCorrect(hay[1..], needle);
      if IsSubstring(needle, hay) {
        var i: nat :| OccursAt(needle, hay, i);
        assert i != 0;
        assert forall j :: 0 <= j < n ==> hay[1..][i - 1 + j] == needle[j];
        assert OccursAt(needle, hay[1..], i - 1);
      }
      if IsSubstring(needle, hay[1..]) {
        var i: nat :| OccursAt(needle, hay[1..], i);
        assert forall j :: 0 <= j < n ==> hay[i + 1 + j] == needle[j];
        assert OccursAt(needle, hay, i + 1);
      }
    }
  }

  /**
   The characters `String.prototype.trim` removes: ECMAScript's WhiteSpace
   (tab, vertical tab, form feed, space, no-break space, byte-order mark and every
   other Unicode space separator) and LineTerminator (LF, CR, LS, PS).
   */
  predicate IsWhitespace(c: char) {
    || c == '\t' || c == '\n' || c == '\U{000B}' || c == '\U{000C}' || c == '\r'
    || c == ' ' || c == '\U{00A0}' || c == '\U{1680}'
    || ('\U{2000}' <= c <= '\U{200A}')
    || c == '\U{2028}' || c == '\U{2029}' || c == '\U{202F}' || c == '\U{205F}'
    || c == '\U{3000}' || c == '\U{FEFF}'
  }

  /** True when every character of `s` is whitespace (the empty string included). */
  predicate IsBlank(s: string) {
    forall i :: 0 <= i < |s| ==> IsWhitespace(s[i])
  }

  /** `r` is `s` without its leading whitespace: a blank prefix is dropped, and `r` starts with non-whitespace. */
  predicate DropsLeadingBlank(s: string, r: string) {
    && |r| <= |s| && r == s[|s| - |r|..]
    && IsBlank(s[..|s| - |r|])
    && (r != [] ==> !IsWhitespace(r[0]))
  }

  /** `r` is `s` without its trailing whitespace: a blank suffix is dropped, and `r` ends with non-whitespace. */
  predicate DropsTrailingBlank(s: string, r: string) {
    && |r| <= |s| && r == s[..|r|]
    && IsBlank(s[|r|..])
    && (r != [] ==> !IsWhitespace(r[|r| - 1]))
  }

  /** `s` with its leading whitespace removed. */
  function TrimStart(s: string): (r: string)
    ensures DropsLeadingBlank(s, r)
  {
    if s != [] && IsWhitespace(s[0]) then
      var r := TrimStart(s[1..]);
      TrimStartStep(s, r);
      r
    else
      assert s[..0] == [];
      s
  }

  /** Dropping one more leading whitespace character keeps the dropped prefix blank. */
  lemma TrimStartStep(s: string, r: string)
    requires s != [] && IsWhitespace(s[0])
    requires DropsLeadingBlank(s[1..], r)
    ensures DropsLeadingBlank(s, r)
  {
    assert s[..|s| - |r|] == [s[0]] + s[1..][..|s[1..]| - |r|];
  }

  /** `s` with its trailing whitespace removed. */
  function TrimEnd(s: string): (r: string)
    ensures DropsTrailingBlank(s, r)
  {
    if s != [] && IsWhitespace(s[|s| - 1]) then
      var r := TrimEnd(s[..|s| - 1]);
      TrimEndStep(s, r);
      r
    else
      assert s[|s|..] == [];
      s
  }

  /** Dropping one more trailing whitespace character keeps the dropped suffix blank. */
  lemma TrimEndStep(s: string, r: string)
    requires s != [] && IsWhitespace(s[|s| - 1])
    requires DropsTrailingBlank(s[..|s| - 1], r)
    ensures DropsTrailingBlank(s, r)
  {
    assert s[|r|..] == s[..|s| - 1][|r|..] + [s[|s| - 1]];
  }

  /**
   `r` is what trimming `s` must give: the slice of `s` left once the whitespace at
   both ends is dropped. It is empty exactly when `s` is blank, and otherwise it
   starts and ends with a non-whitespace character.
   */
  ghost predicate IsTrimOf(r: string, s: string) {
    && |r| <= |s|
    && (r == [] <==> IsBlank(s))
    && (r != [] ==> !IsWhitespace(r[0]) && !IsWhitespace(r[|r| - 1]))
    && exists a: nat :: OccursAt(r, s, a) && IsBlank(s[..a]) && IsBlank(s[a + |r|..])
  }

  /** `s.trim()`. */
  function Trim(s: string): (r: string)
    ensures IsTrimOf(r, s)
  {
    TrimSlice(s, TrimStart(s), TrimEnd(TrimStart(s)));
    TrimEnd(TrimStart(s))
  }

  /** Dropping a blank prefix and then a blank suffix leaves the trim. */
  lemma TrimSlice(s: string, t: string, r: string)
    requires DropsLeadingBlank(s, t)
    requires DropsTrailingBlank(t, r)
    ensures IsTrimOf(r, s)
  {
    var a := |s| - |t|;
    assert s[a..a + |r|] == r;
    assert s[a + |r|..] == t[|r|..];
    assert OccursAt(r, s, a);
    if r == [] {
      assert t[|r|..] == t;
      assert |t| == 0;
      assert s[..a] == s;
    } else {
      assert r[0] == t[0] == s[a];
    }
  }

  /** A string that neither starts nor ends with whitespace is its own trim. */
  lemma TrimUntouched(s: string)
    requires s != [] && !IsWhitespace(s[0]) && !IsWhitespace(s[|s| - 1])
    ensures Trim(s) == s
  {
  }
}

=== FILE: theme.dfy ===
/**
 The persisted light/dark/system theme preference (`src/lib/theme.ts`).

 The browser is reduced to the parts the store touches: the `localStorage`
 entries, the `(prefers-color-scheme: dark)` media query, the `dark` class of
 the document element, the module-level `mediaListener` variable, and the set of
 change listeners registered on media query list objects.
 */
module ThemeStore {
  import opened Wrappers

  /** The user's preference. */
  datatype Theme = Light | Dark | System

  /** The `localStorage` key the preference is stored under. */
  const StorageKey: string := "theme"

  /** The token a preference is stored as. */
  function Name(t: Theme): string {
    match t
    case Light => "light"
    case Dark => "dark"
    case System => "system"
  }

  /** Recognises a stored token; anything but the three tokens is rejected. */
  function Parse(s: string): (r: Option<Theme>)
    ensures forall t :: r == Some(t) <==> s == Name(t)
  {
    if s == "light" then Some(Light)
    else if s == "dark" then Some(Dark)
    else if s == "system" then Some(System)
    else None
  }

  /**
   `localStorage` as the store sees it: its entries, whether reading succeeds
   (`getItem` does not throw) and whether writing succeeds (`setItem` does not throw,
   e.g. no quota or security error).
   */
  datatype Storage = Storage(items: map<string, string>, readable: bool, writable: bool)

  /** `localStorage.getItem(key)`, or `None` when reading throws. */
  function GetItem(st: Storage, key: string): Option<string> {
    if st.readable && key in st.items then Some(st.items[key]) else None
  }

  /**
   `getStoredTheme()`: the stored preference when the entry can be read and holds
   one of the three tokens; `None` (JavaScript `null`) for an absent, empty,
   unrecognised or unreadable entry.
   */
  function GetStoredTheme(st: Storage): (r: Option<Theme>)
    ensures forall t :: r == Some(t) <==>
              st.readable && StorageKey in st.items && st.items[StorageKey] == Name(t)
  {
    var item := GetItem(st, StorageKey);
    if item.None? || item.value == "" then None
    else Parse(item.value)
  }

  /** `getInitialTheme()`: the stored preference, or `System` when there is none. */
  function GetInitialTheme(st: Storage): (r: Theme)
    ensures st.readable && StorageKey in st.items && Parse(st.items[StorageKey]).Some? ==>
              r == Parse(st.items[StorageKey]).value
    ensures !st.readable || StorageKey !in st.items || Parse(st.items[StorageKey]).None? ==>
              r == System
  {
    GetStoredTheme(st).GetOr(System)
  }

  /**
   Whether preference `t` darkens the page. `media` is `None` when
   `window.matchMedia` is missing, and otherwise carries whether the media query
   `(prefers-color-scheme: dark)` currently matches.
   */
  function Resolve(t: Theme, media: Option<bool>): bool {
    match t
    case Light => false
    case Dark => true
    case System => media.Some? && media.value
  }

  /** The resolution table: light clears, dark sets, system follows the platform (false without one). */
  lemma ResolveTable(media: Option<bool>)
    ensures !Resolve(Light, media)
    ensures Resolve(Dark, media)
    ensures Resolve(System, media) <==> media == Some(true)
    ensures Resolve(System, None) == false
  {
  }

  /** A change listener added to one media query list object. */
  datatype Registration = Registration(queryList: nat, handler: nat)

  /** The parts of the page the theme store reads and writes. */
  datatype Page = Page(
    storage: Storage,
    media: Option<bool>,
    dark: bool,                          // `document.documentElement.classList` holds "dark"
    mediaListener: Option<Registration>, // the module-level `mediaListener` slot
    listeners: set<Registration>,        // change listeners currently registered
    nextObject: nat                      // identity for the next media query list or closure created
  )

  /** `applyTheme(t)`: sets the dark flag from `t`, and touches nothing else. */
  function ApplyTheme(p: Page, t: Theme): (r: Page)
    ensures r == p.(dark := r.dark)
    ensures t == Light ==> !r.dark
    ensures t == Dark ==> r.dark
    ensures t == System ==> (r.dark <==> p.media == Some(true))
  {
    p.(dark := Resolve(t, p.media))
  }

  /** Applying a preference twice is the same as applying it once. */
  lemma ApplyThemeIdempotent(p: Page, t: Theme)
    ensures ApplyTheme(ApplyTheme(p, t), t) == ApplyTheme(p, t)
  {
  }

  /**
   `setTheme(t)`: stores the token when the write succeeds (a failed write is
   ignored), then applies `t`. Nothing besides the entry and the flag changes.
   */
  function SetTheme(p: Page, t: Theme): (r: Page)
    ensures r.dark == Resolve(t, p.media)
    ensures p.storage.writable ==> r.storage == p.storage.(items := p.storage.items[StorageKey := Name(t)])
    ensures !p.storage.writable ==> r.storage == p.storage
    ensures r == p.(storage := r.storage, dark := r.dark)
  {
    var st := if p.storage.writable
              then p.storage.(items := p.storage.items[StorageKey := Name(t)])
              else p.storage;
    ApplyTheme(p.(storage := st), t)
  }

  /** After a successful `setTheme(t)`, reloading reads back `t`. */
  lemma SetThemeRoundTrip(p: Page, t: Theme)
    requires p.storage.readable && p.storage.writable
    ensures GetStoredTheme(SetTheme(p, t).storage) == Some(t)
    ensures GetInitialTheme(SetTheme(p, t).storage) == t
  {
  }

  /** Even when the write fails, the page shows `t` and the stored preference is unchanged. */
  lemma SetThemeWriteFails(p: Page, t: Theme)
    requires !p.storage.writable
    ensures SetTheme(p, t).dark == Resolve(t, p.media)
    ensures GetInitialTheme(SetTheme(p, t).storage) == GetInitialTheme(p.storage)
  {
  }

  /**
   What the registered change listeners do when the media query's value flips to
   `prefersDark`: each reloads the stored-or-`System` preference and re-applies it
   only when it is `System`. Every listener does the same, so the flag depends only
   on whether at least one is registered. Without `matchMedia` there is no event.
   */
  function OsChange(p: Page, prefersDark: bool): (r: Page)
    ensures r == p.(media := r.media, dark := r.dark)
    ensures p.media.None? ==> r == p
    ensures p.media == Some(prefersDark) ==> r == p
    ensures p.media.Some? ==> r.media == Some(prefersDark)
    ensures GetInitialTheme(p.storage) != System ==> r.dark == p.dark
    ensures p.listeners == {} ==> r.dark == p.dark
    ensures p.media.Some? && p.media != Some(prefersDark) && p.listeners != {} && GetInitialTheme(p.storage) == System ==>
              r.dark == prefersDark
  {
    if p.media.None? || p.media == Some(prefersDark) then p
    else
      var q := p.(media := Some(prefersDark));
      if q.listeners != {} && GetInitialTheme(q.storage) == System then ApplyTheme(q, System) else q
  }

  /** The `mediaListener` slot, as a set of registrations. */
  function SlotSet(slot: Option<Registration>): set<Registration> {
    if slot.Some? then {slot.value} else {}
  }

  /** A set of registrations within the slot has at most one element. */
  lemma SlotSetSize(regs: set<Registration>, slot: Option<Registration>)
    ensures regs <= SlotSet(slot) ==> |regs| <= 1
  {
    if regs <= SlotSet(slot) && slot.Some? && regs != {} {
      assert regs == {slot.value};
    }
  }

  /** Identities handed out so far are all below `nextObject`. */
  predicate IdentitiesFresh(p: Page) {
    && (forall reg :: reg in p.listeners ==> reg.queryList < p.nextObject && reg.handler < p.nextObject)
    && (p.mediaListener.Some? ==> p.mediaListener.value.handler < p.nextObject)
  }

  /**
   What a call of `initTheme()` leaves behind: the page, and whether an exception
   escaped the call.
   */
  datatype InitResult = InitResult(page: Page, threw: bool)

  /**
   `initTheme()` as written. It applies the stored-or-`System` preference. When
   `matchMedia` exists it obtains the query list by calling `matchMedia` again,
   which returns a NEW list object each time, removes the previous closure from
   that new object, creates a new closure, stores it in `mediaListener` and adds it
   with `addEventListener`, falling back to `addListener` when that throws.

   `eventTarget` says whether the list object is an EventTarget, i.e. has working
   `addEventListener` and `removeEventListener`; `legacyAdd` says whether the
   `addListener` fallback succeeds. On a list that is not an EventTarget the
   removal, which is not guarded by a `try`, throws as soon as a previous closure
   exists: the exception escapes after the preference was applied, before the slot
   or the listeners change.
   */
  function InitTheme(p: Page, eventTarget: bool, legacyAdd: bool): (r: InitResult)
    requires IdentitiesFresh(p)
    ensures IdentitiesFresh(r.page)
    ensures r.page.dark == Resolve(GetInitialTheme(p.storage), p.media)
    ensures r.page.storage == p.storage && r.page.media == p.media
    ensures r.threw <==> p.media.Some? && p.mediaListener.Some? && !eventTarget
    ensures p.media.None? || r.threw ==> r.page.listeners == p.listeners && r.page.mediaListener == p.mediaListener
    ensures p.media.Some? ==> p.listeners <= r.page.listeners
    ensures p.media.Some? && !r.threw ==>
              && r.page.mediaListener.Some?
              && (r.page.mediaListener.value in r.page.listeners <==> eventTarget || legacyAdd)
    ensures p.media.Some? && !r.threw ==>
              && r.page.mediaListener != p.mediaListener
              && r.page.listeners == p.listeners + (if eventTarget || legacyAdd then {r.page.mediaListener.value} else {})
    ensures p.media.Some? && !r.threw && (eventTarget || legacyAdd) ==> |r.page.listeners| == |p.listeners| + 1
  {
    var applied := ApplyTheme(p, GetInitialTheme(p.storage));
    if p.media.None? then InitResult(applied, false)
    else
      var queryList := p.nextObject;
      if p.mediaListener.Some? && !eventTarget then
        InitResult(applied.(nextObject := p.nextObject + 1), true)
      else
        var handler := p.nextObject + 1;
        var kept := if p.mediaListener.Some?
                    then p.listeners - {Registration(queryList, p.mediaListener.value.handler)}
                    else p.listeners;
        assert kept == p.listeners;
        var added := Registration(queryList, handler);
        var registered := if eventTarget || legacyAdd then kept + {added} else kept;
        assert added !in kept;
        InitResult(applied.(mediaListener := Some(added), listeners := registered, nextObject := p.nextObject + 2), false)
  }

  /**
   `initTheme()` with the previous closure removed from the list object it was
   added to, through the call matching the one that added it (`removeEventListener`
   or `removeListener`), which is what the removal intends. Only the removal
   differs; it cannot throw. When a registration succeeds, the new closure is the
   only listener left.
   */
  function InitThemeFixed(p: Page, eventTarget: bool, legacyAdd: bool): (r: Page)
    ensures r.dark == Resolve(GetInitialTheme(p.storage), p.media)
    ensures r.storage == p.storage && r.media == p.media
    ensures p.media.None? ==> r.listeners == p.listeners && r.mediaListener == p.mediaListener
    ensures p.media.Some? ==> r.mediaListener.Some? && r.listeners - {r.mediaListener.value} <= p.listeners
    ensures p.listeners <= SlotSet(p.mediaListener) ==> r.listeners <= SlotSet(r.mediaListener)
    ensures p.listeners <= SlotSet(p.mediaListener) ==> |r.listeners| <= 1
    ensures p.media.Some? && (eventTarget || legacyAdd) && p.listeners <= SlotSet(p.mediaListener) ==>
              r.listeners == {r.mediaListener.value}
    ensures p.media.Some? && !(eventTarget || legacyAdd) && p.listeners <= SlotSet(p.mediaListener) ==>
              r.listeners == {}
  {
    var applied := ApplyTheme(p, GetInitialTheme(p.storage));
    SlotSetSize(p.listeners, p.mediaListener);
    if p.media.None? then applied
    else
      var queryList := p.nextObject;
      var handler := p.nextObject + 1;
      var kept := p.listeners - SlotSet(p.mediaListener);
      var added := Registration(queryList, handler);
      var registered := if eventTarget || legacyAdd then kept + {added} else kept;
      applied.(mediaListener := Some(added), listeners := registered, nextObject := p.nextObject + 2)
  }

  /** A page before the theme store has registered anything. */
  predicate Unsubscribed(p: Page) {
    p.listeners == {} && p.mediaListener.None?
  }

  /**
   Calling `initTheme()` as written twice, with the platform supporting
   `matchMedia` and `addEventListener`, leaves two change listeners registered.
   */
  lemma InitThemeTwiceLeaksListener(p: Page)
    requires Unsubscribed(p) && p.media.Some?
    ensures var first := InitTheme(p, true, false);
            && !first.threw
            && !InitTheme(first.page, true, false).threw
            && |InitTheme(first.page, true, false).page.listeners| == 2
  {
  }

  /**
   Calling `initTheme()` as written twice on a platform whose list object only has
   the legacy `addListener`: the first call registers through the fallback, the
   second throws at the removal and leaves that first listener in place.
   */
  lemma InitThemeTwiceThrowsOnLegacy(p: Page)
    requires Unsubscribed(p) && p.media.Some?
    ensures var first := InitTheme(p, false, true);
            && !first.threw
            && |first.page.listeners| == 1
            && InitTheme(first.page, false, true).threw
            && InitTheme(first.page, false, true).page.listeners == first.page.listeners
  {
  }

  /**
   With the corrected removal, a second `initTheme()` on the legacy platform
   completes and leaves exactly its own closure registered.
   */
  lemma InitThemeFixedTwiceOnLegacy(p: Page)
    requires Unsubscribed(p) && p.media.Some?
    ensures var r := InitThemeFixed(InitThemeFixed(p, false, true), false, true);
            r.mediaListener.Some? && r.listeners == {r.mediaListener.value}
  {
  }

  /**
   Once the corrected `initTheme()` has registered its closure while the
   preference is `System`, a change of the platform's colour scheme moves the dark
   flag to the new value.
   */
  lemma InitThenOsChangeFollows(p: Page, eventTarget: bool, legacyAdd: bool, prefersDark: bool)
    requires p.media.Some? && p.media != Some(prefersDark)
    requires eventTarget || legacyAdd
    requires GetInitialTheme(p.storage) == System
    ensures OsChange(InitThemeFixed(p, eventTarget, legacyAdd), prefersDark).dark == prefersDark
  {
    var q := InitThemeFixed(p, eventTarget, legacyAdd);
    assert q.mediaListener.value in q.listeners;
  }

  /** The events the theme store reacts to. */
  datatype Event =
    | Init(eventTarget: bool, legacyAdd: bool) // `initTheme()`
    | Choose(theme: Theme)                     // `setTheme(theme)` from the toggle
    | MediaChange(prefersDark: bool)           // the platform's colour scheme flips

  /** One event, with the corrected `initTheme`. */
  function Step(p: Page, e: Event): Page {
    match e
    case Init(m, l) => InitThemeFixed(p, m, l)
    case Choose(t) => SetTheme(p, t)
    case MediaChange(d) => OsChange(p, d)
  }

  /** A sequence of events, in order. */
  function Run(p: Page, es: seq<Event>): Page
    decreases |es|
  {
    if es == [] then p else Run(Step(p, es[0]), es[1..])
  }

  /**
   However many times `initTheme()` runs, interleaved with preference changes and
   platform changes, at most one change listener is registered, and it is the one
   in the `mediaListener` slot.
   */
  lemma {:induction false} AtMostOneListener(p: Page, es: seq<Event>)
    requires p.listeners <= SlotSet(p.mediaListener)
    ensures Run(p, es).listeners <= SlotSet(Run(p, es).mediaListener)
    ensures |Run(p, es).listeners| <= 1
    decreases |es|
  {
    if es != [] {
      AtMostOneListener(Step(p, es[0]), es[1..]);
    } else {
      SlotSetSize(p.listeners, p.mediaListener);
    }
  }

  /** Re-running `initTheme()` leaves the dark flag where the first run put it. */
  lemma InitThemeIdempotentFlag(p: Page, m1: bool, l1: bool, m2: bool, l2: bool)
    ensures InitThemeFixed(InitThemeFixed(p, m1, l1), m2, l2).dark == InitThemeFixed(p, m1, l1).dark
  {
  }

  /** The same holds for `initTheme()` as written, whether or not the second call throws. */
  lemma InitThemeAsWrittenIdempotentFlag(p: Page, m1: bool, l1: bool, m2: bool, l2: bool)
    requires IdentitiesFresh(p)
    ensures InitTheme(InitTheme(p, m1, l1).page, m2, l2).page.dark == InitTheme(p, m1, l1).page.dark
  {
  }
}

=== FILE: wrappers.dfy ===
/** The optional value used for JavaScript's `null`/`undefined` slots. */
module Wrappers {

  /** `None` stands for `null` or `undefined`; `Some(v)` for a present value. */
  datatype Option<+T> = None | Some(value: T) {

    /** Returns the encapsulated value, or `default` when absent (JavaScript's `??`). */
    function GetOr(default: T): T {
      match this
      case Some(v) => v
      case None => default
    }
  }
}
